=== FILE: README.md ===
# Aeron data transport poller, modelled in Dafny

Aeron's media driver receives UDP datagrams through `DataTransportPoller`. The poller keeps an ordered array of
`ChannelAndTransport` triples: a receive channel endpoint, a UDP channel transport, and a transport index.
On every duty-cycle tick it polls those transports. When the array is small, it iterates the array directly.
Otherwise it asks the NIO selector which channels are readable. Each datagram an endpoint accepts is handed to
the callback its frame type selects. The poller also fans out the re-resolution check and the shutdown close
over every registered endpoint.

The model is functional. The registry is a `seq<Entry>`. Registration and cancellation are pure functions on it.
Java object identity is a `nat` id, so reference comparison is equality of ids. Every call into a collaborator
becomes one `Event` of a trace, in call order. What a collaborator answers is an input, not a side effect:

- what the receive finds;
- the endpoint's `isValidFrame` verdict;
- the frame type tag;
- the count `onDataPacket` answers;
- the selector's ready set;
- whether a close call throws.

Properties are stated about the result and about projections of the trace:

- the entries asked to receive;
- the frame callbacks;
- the close calls;
- the reported errors;
- the sum of `onDataPacket` answers.

Files:

- `results.dfy`: `Option` and `Result`.
- `registry.dfy`: the `ChannelAndTransport` triple and the register and cancel operations. Every field of the
  triple is final in Java, so it is a datatype value here and cannot change once built.
- `events.dfy`: the collaborator calls and the trace projections. Its concatenation and unfolding lemmas
  (`FilterNone`, `FilterConcat`, `ReceivesConcat`, `DataTotalConcat`, `Cons`, `Cons3`, `Single`) are trace-algebra helpers for the
  other proofs and model no source line of their own.
- `seqs.dfy`: three generic facts about sequence concatenation.
- `dispatch.dfy`: the private per-transport `poll`.
- `poll_loop.dfy`: `pollTransports`.
- `sweeps.dfy`: `checkForReResolutions` and `close`. `CallsBeforeReportsSnoc` and `CallsBeforeReportsCount` are
  trace-algebra helpers of the same kind.

The code does not enforce that an (endpoint, transport) pair is registered at most once.
`registerForRead` appends without looking, and `cancelRead` removes only the first match. The model follows the code.
Uniqueness (`Registry.Unique`) is proved to be preserved by cancelling. It is preserved by registering only when
the pair is not already registered.

`cancelRead` does not cancel the selection key. A ready key may therefore still carry an entry that is no longer
in the registry. For this reason the selected entries are an arbitrary sequence, not a subsequence of the registry.

The selected-key set is state that outlives a tick. `selectNow` adds the newly ready keys to it, and only a tick
that reaches `selectedKeySet.reset()` empties it. A tick whose `selectNow` throws leaves it as it was. The next
tick then polls those keys again, ahead of the newly ready ones.

## Model

| member | source | states |
|---|---|---|
| Registry.RegisterForRead | aeron-driver/src/main/java/io/aeron/driver/media/DataTransportPoller.java:109-127 | Fails exactly when the datagram channel is closed. On success it hands back the selection key, and the registry grows by exactly one entry: the new triple at the end, with every earlier entry unchanged and in order. |
| Registry.RegisterSelfForRead | aeron-driver/src/main/java/io/aeron/driver/media/DataTransportPoller.java:104-107 | The one-argument overload is exactly `registerForRead(t, t, 0)`. It registers the transport as its own endpoint with transport index 0, hands back the same selection key, and fails exactly when the channel is closed. |
| Registry.FindFrom | aeron-driver/src/main/java/io/aeron/driver/media/DataTransportPoller.java:136-146 | The cancel scan stops at the first position whose endpoint and transport both match by identity. If it finds none, no position from the start onward matches. |
| Registry.RemoveAt | aeron-driver/src/main/java/io/aeron/driver/media/DataTransportPoller.java:150 | Removing one position shortens the array by one and removes exactly that element from its multiset. |
| Registry.CancelRead | aeron-driver/src/main/java/io/aeron/driver/media/DataTransportPoller.java:134-152 | An unregistered pair leaves the registry unchanged, with no error. Otherwise it removes exactly the first matching entry: the others keep their order, the length drops by one, and no non-matching entry is lost or duplicated. |
| Registry.CancelSelfRead | aeron-driver/src/main/java/io/aeron/driver/media/DataTransportPoller.java:129-132 | The one-argument overload is exactly `cancelRead(t, t)`: the same first-match removal for the transport registered as its own endpoint. |
| Registry.CancelUndoesRegister | aeron-driver/src/main/java/io/aeron/driver/media/DataTransportPoller.java:115-119 | Registering a pair that is absent and then cancelling the same pair gives back the original registry. |
| Registry.RegisterThenCancelKeepsLength | aeron-driver/src/main/java/io/aeron/driver/media/DataTransportPoller.java:115-150 | Registering a pair and then cancelling it leaves the registry at its original size, whether or not the pair was already registered. |
| Registry.RegisterKeepsUnique | aeron-driver/src/main/java/io/aeron/driver/media/DataTransportPoller.java:115-119 | Registering an absent pair into a registry without duplicate pairs keeps it without duplicate pairs. |
| Registry.RemoveAtKeepsUnique | aeron-driver/src/main/java/io/aeron/driver/media/DataTransportPoller.java:150 | Removing an element from a registry without duplicate pairs keeps it without duplicate pairs. |
| Registry.CancelKeepsUnique | aeron-driver/src/main/java/io/aeron/driver/media/DataTransportPoller.java:134-152 | Cancelling keeps a registry free of duplicate pairs. |
| Registry.CancelClearsPair | aeron-driver/src/main/java/io/aeron/driver/media/DataTransportPoller.java:139-151 | In a registry without duplicate pairs, no entry matches the pair after it is cancelled. |
| Registry.CancelIsIdempotent | aeron-driver/src/main/java/io/aeron/driver/media/DataTransportPoller.java:134-152 | In a registry without duplicate pairs, cancelling a pair twice is the same as cancelling it once. |
| Dispatch.TypeCallback | aeron-driver/src/main/java/io/aeron/driver/media/DataTransportPoller.java:177-192 | The frame type selects at most one type callback, and never the hook or a receive. A callback fires exactly when the tag is DATA, PAD, SETUP or RTTM. The bytes it contributes are the `onDataPacket` answer for DATA and PAD frames, and 0 for any other tag. |
| Dispatch.Poll | aeron-driver/src/main/java/io/aeron/driver/media/DataTransportPoller.java:162-197 | A poll first asks its entry's transport to receive, and it makes no call other than the receive, the validity check and frame callbacks. It counts 0 unless the endpoint accepted the frame. An accepted DATA or PAD frame counts exactly what `onDataPacket` answered, and any non-zero count comes from such a frame. |
| Dispatch.RejectedTrace | aeron-driver/src/main/java/io/aeron/driver/media/DataTransportPoller.java:164-172 | When the receive finds no datagram, or the endpoint rejects the frame, the poll receives once, fires no frame callback and counts 0. |
| Dispatch.ValidityCheckedOnce | aeron-driver/src/main/java/io/aeron/driver/media/DataTransportPoller.java:164-171 | `isValidFrame` is asked exactly once, of the entry's endpoint with the received length, when a datagram arrived, and never when the receive found nothing. |
| Dispatch.PollReceivesOnce | aeron-driver/src/main/java/io/aeron/driver/media/DataTransportPoller.java:162-196 | Every poll asks exactly its own entry's transport to receive, once. Its count equals the sum of the `onDataPacket` answers among its calls. |
| Dispatch.CallbacksIffAccepted | aeron-driver/src/main/java/io/aeron/driver/media/DataTransportPoller.java:167-176 | A poll fires a frame callback if and only if a datagram arrived and the endpoint accepted it. The hook then fires exactly once, with that frame's length and source, and it comes before the type callback. |
| Dispatch.HookComesFirst | aeron-driver/src/main/java/io/aeron/driver/media/DataTransportPoller.java:173-192 | In an accepted poll the hook is the first frame callback, and the type callbacks come after it in order. |
| Dispatch.PollRoutesByType | aeron-driver/src/main/java/io/aeron/driver/media/DataTransportPoller.java:177-192 | For an accepted frame: DATA and PAD call `onDataPacket` and count its answer. SETUP calls `onSetupMessage` and counts 0. RTTM calls `onRttMeasurement` and counts 0. Any other tag fires no type callback and counts 0. |
| PollLoop.PollEach | aeron-driver/src/main/java/io/aeron/driver/media/DataTransportPoller.java:78-81 | Polling a run of entries asks exactly those entries' transports to receive, once each, in order, and makes no call other than poll calls. The summed count equals the sum, over the arrivals, of what `onDataPacket` answered for each accepted DATA or PAD frame: a reference computed from the inputs alone. |
| PollLoop.PollTransports | aeron-driver/src/main/java/io/aeron/driver/media/DataTransportPoller.java:71-102 | At or below the threshold, it polls every entry once in registry order, makes no selector call and leaves the selected set alone. Above the threshold: a failing `selectNow` is rethrown before any poll and leaves the selected set as it was. Otherwise there are exactly two selector calls. `selectNow` comes first, then every key in the selected set is polled in key order (those left from before, then the newly ready ones), and the set is reset last and left empty. A successful tick makes only poll calls and selector calls. Its frame callbacks are those of each polled entry's own poll of its own arrival, in polling order. The result is the sum of the `onDataPacket` answers for the accepted DATA and PAD frames among the polled arrivals. |
| PollLoop.NoSelectorCalls | aeron-driver/src/main/java/io/aeron/driver/media/DataTransportPoller.java:76-82 | Direct iteration over the registry never calls `selectNow` or resets the selected set. |
| PollLoop.PollsMakeNoSelectorCall | aeron-driver/src/main/java/io/aeron/driver/media/DataTransportPoller.java:76-82 | A run of polls contains no selector call at all. |
| PollLoop.SelectingTickCalls | aeron-driver/src/main/java/io/aeron/driver/media/DataTransportPoller.java:83-94 | A tick through the selector fires the frame callbacks of its polls in order and makes exactly two selector calls: `selectNow` first, then the reset. |
| PollLoop.SelectingTickMakesNoOtherCall | aeron-driver/src/main/java/io/aeron/driver/media/DataTransportPoller.java:83-94 | A tick through the selector makes poll calls and selector calls and nothing else. |
| PollLoop.PollEachSplits | aeron-driver/src/main/java/io/aeron/driver/media/DataTransportPoller.java:78-81 | The calls made by polling two runs of entries one after the other are the calls of polling their concatenation. |
| PollLoop.PollEachAdds | aeron-driver/src/main/java/io/aeron/driver/media/DataTransportPoller.java:78-81 | The count of a concatenation of runs is the sum of the runs' counts. |
| PollLoop.QuietPollsCountZero | aeron-driver/src/main/java/io/aeron/driver/media/DataTransportPoller.java:73-81 | A tick in which no poll finds an accepted DATA or PAD frame receives 0 bytes. |
| PollLoop.CallbacksFollowArrivals | aeron-driver/src/main/java/io/aeron/driver/media/DataTransportPoller.java:78-81 | The frame callbacks of a run of polls are those of the k-th entry's poll of the k-th arrival, entry after entry, in order. |
| PollLoop.SilentIffNoneAccepted | aeron-driver/src/main/java/io/aeron/driver/media/DataTransportPoller.java:78-81 | A run of polls fires no frame callback at all if and only if no arrival is a frame its endpoint accepts. |
| PollLoop.ResetClearsReadiness | aeron-driver/src/main/java/io/aeron/driver/media/DataTransportPoller.java:83-94 | After a tick above the threshold, a second tick whose `selectNow` reports nothing newly ready polls nothing and receives 0 bytes, because the first tick reset the selected set. |
| PollLoop.FailureKeepsSelectedKeys | aeron-driver/src/main/java/io/aeron/driver/media/DataTransportPoller.java:85-99 | A failing `selectNow` skips the reset. The next tick whose `selectNow` succeeds polls the keys left from before, then the newly ready ones. |
| PollLoop.OnlyReadyTransportIsPolled | aeron-driver/src/main/java/io/aeron/driver/media/DataTransportPoller.java:83-94 | Consider two transports, a threshold of 1, and only the second transport ready. Then only the second is polled, and the tick counts what its `onDataPacket` answered. |
| Sweeps.CheckForReResolutions | aeron-driver/src/main/java/io/aeron/driver/media/DataTransportPoller.java:154-160 | It makes one `checkForReResolution` call per entry, on that entry's endpoint, in registry order, with the clock and proxy passed through. It makes no other call. |
| Sweeps.Attempt | aeron-driver/src/main/java/io/aeron/driver/media/DataTransportPoller.java:64-65 | A guarded close makes its call, and reports its failure to the error handler exactly when it threw. |
| Sweeps.ReportAfter | aeron-driver/src/main/java/io/aeron/driver/media/DataTransportPoller.java:64-65 | A guarded close's report is no close call. It is the whole error projection of the attempt, and it names the call that threw, directly after that call. |
| Sweeps.EntryClosing | aeron-driver/src/main/java/io/aeron/driver/media/DataTransportPoller.java:61-66 | For one entry: `closeMultiRcvDestination` and then `close` on its endpoint, whichever throws. Each failure is reported in call order. |
| Sweeps.EntryReportsFollowCalls | aeron-driver/src/main/java/io/aeron/driver/media/DataTransportPoller.java:64-65 | Within one entry's part of the sweep, every call is a close call or a report. Each report comes directly after the close call that threw, and it names that call. |
| Sweeps.ReportsFollowCallsConcat | aeron-driver/src/main/java/io/aeron/driver/media/DataTransportPoller.java:61-66 | Two consecutive stretches of the sweep in which reports follow their calls make one such stretch. |
| Sweeps.ClosingStep | aeron-driver/src/main/java/io/aeron/driver/media/DataTransportPoller.java:61-66 | Closing one more entry extends the close calls and the reported failures by exactly that entry's part. |
| Sweeps.CloseCallsStep | aeron-driver/src/main/java/io/aeron/driver/media/DataTransportPoller.java:61-66 | Closing one more entry adds its `closeMultiRcvDestination` call and then its endpoint `close` call. |
| Sweeps.FailuresStep | aeron-driver/src/main/java/io/aeron/driver/media/DataTransportPoller.java:61-66 | The reported failures for one more entry are those before it, then its own, with the multi-destination failure first. |
| Sweeps.ReportingStep | aeron-driver/src/main/java/io/aeron/driver/media/DataTransportPoller.java:61-66 | Closing one more entry extends the reported failures by exactly that entry's reports. |
| Sweeps.ReportAt | aeron-driver/src/main/java/io/aeron/driver/media/DataTransportPoller.java:61-66 | The report at any position, the j-th report of the trace, has exactly the j-th count of close calls before it. |
| Sweeps.AttemptPinned | aeron-driver/src/main/java/io/aeron/driver/media/DataTransportPoller.java:64-65 | A guarded close adds one close call. If it throws, its report comes after exactly one more close call than there were before it. |
| Sweeps.EntryPinned | aeron-driver/src/main/java/io/aeron/driver/media/DataTransportPoller.java:61-66 | For an entry closed after c close calls, a multi-destination failure is reported after call c+1 and an endpoint failure after call c+2. |
| Sweeps.ThrowingCallsStep | aeron-driver/src/main/java/io/aeron/driver/media/DataTransportPoller.java:61-66 | Entry k's calls that threw are numbers 2k+1 (multi-destination) and 2k+2 (endpoint), after those of the entries before it. |
| Sweeps.PinningStep | aeron-driver/src/main/java/io/aeron/driver/media/DataTransportPoller.java:61-66 | Closing one more entry keeps every report pinned to the number of the call that threw. |
| Sweeps.ClosingLast | aeron-driver/src/main/java/io/aeron/driver/media/DataTransportPoller.java:68 | Closing the base poller adds one close call, last, and no report. |
| Sweeps.Close | aeron-driver/src/main/java/io/aeron/driver/media/DataTransportPoller.java:58-69 | The close calls do not depend on which calls throw: every entry's two closes in registry order, then the base poller's close, last. Every failure is reported, in call order. The sweep makes no other call. Each report comes directly after the close call that threw and names that call. The j-th report comes after exactly as many close calls as the number of the j-th call that threw, so even entries that share an endpoint cannot have their reports swapped. |
| Sweeps.EveryEntryIsClosed | aeron-driver/src/main/java/io/aeron/driver/media/DataTransportPoller.java:61-66 | The shutdown calls consist of two calls per entry and nothing else. The k-th entry's `closeMultiRcvDestination` is call 2k and its endpoint `close` is call 2k+1. |
| Sweeps.EveryFailureIsReported | aeron-driver/src/main/java/io/aeron/driver/media/DataTransportPoller.java:64-65 | There is exactly one error report per close call that threw. |
| Sweeps.SharedEndpointThrowingCalls | aeron-driver/src/main/java/io/aeron/driver/media/DataTransportPoller.java:61-66 | For two entries on one endpoint, where only the first entry's multi-destination close throws, the only call that threw is call 1. |
| Sweeps.SharedEndpointReportInPlace | aeron-driver/src/main/java/io/aeron/driver/media/DataTransportPoller.java:61-66 | The sweep's trace in that case reports the failure after call 1, before the first entry's endpoint close. |
| Sweeps.SharedEndpointReportMisplaced | aeron-driver/src/main/java/io/aeron/driver/media/DataTransportPoller.java:61-66 | A trace that reports the same failure after the second entry's identical call shows 3, so `Close` rules it out. |

## Left out

- NIO selector mechanics. The selection keys and their attachments are the entries they carry. What `selectNow`
  adds to the selected set is one input: the entries of the newly ready keys, in key order, or the `IOException`
  it raised. The selector's own rule that a key already in the set is not added again is left to that input.
- Exception plumbing. `ClosedChannelException` and `IOException` rethrown through `LangUtil.rethrowUnchecked` are
  `Failure` results. Every other exception is left out. That covers a receive or an endpoint callback
  throwing during a poll, which would abort the tick. It covers `checkForReResolution` throwing, which would
  abort `checkForReResolutions` part-way, so its contract covers only sweeps where no call throws. It covers
  `errorHandler.onError` throwing inside a guarded close, and the base poller's `close()` throwing at the end
  of `close`.
- Sweeps.CheckForReResolutions: promises a call for every entry only for sweeps in which no
  `checkForReResolution` call throws, as stated above.
- The ClassCastException the one-argument overloads raise when the transport is not a receive channel endpoint.
  There, the transport and its endpoint are the same object by construction.
- Buffers and flyweights. The direct `ByteBuffer`, the `UnsafeBuffer` and the DATA, SETUP and RTTM flyweights are
  memory layout only. The frame type is an input tag, not a read of the header bytes. The tag values follow
  Aeron's HeaderFlyweight, which is not part of this model; the proofs rely only on their being distinct.
- Collaborator internals. `UdpChannelTransport.receive`, the `ReceiveChannelEndpoint` callbacks, `CloseHelper`,
  `ErrorHandler` and `DriverConductorProxy` are recorded as calls in the trace. What they answer is an input.
- The value of `ITERATION_THRESHOLD` is a parameter. It is defined in UdpTransportPoller, which is not part of
  this model. So is the base poller's own `close()` (releasing the selector), which appears as one event.
- The identity of the returned `SelectionKey` is the key the attach input supplies. On failure the Java method
  returns null after rethrowing, which is unreachable and is not modelled.
- PollLoop.PollTransports: the sum of `bytesReceived` and the `onDataPacket` answers are mathematical integers,
  so 32-bit `int` wrap-around of the sum is not modelled.
- Threading. The poller runs on the receiver's single duty-cycle thread, so there is no concurrency to model.

=== FILE: dispatch.dfy ===
/**
 The private `poll(channelAndTransport)` of the data transport poller: one
 receive attempt on one registered transport, and, for a datagram the endpoint
 accepts, the observation hook followed by the callback its frame type selects.
 The transport's receive, the endpoint's verdict and the count `onDataPacket`
 answers are inputs; the frame type is the tag read from the frame header.
 */
module Dispatch {
  import opened Registry
  import opened Events

  /**
   Frame type tags of the Aeron protocol header (HeaderFlyweight, which is not
   part of this model). The proofs rely only on the four being distinct.
   */
  const PadFrame: int := 0x00
  const DataFrame: int := 0x01
  const SetupFrame: int := 0x05
  const RttmFrame: int := 0x06

  /**
   What one poll finds: no datagram (receive returned a null source address),
   or a datagram with the number of bytes written into the buffer, its source,
   the endpoint's `isValidFrame` verdict, the frame type tag, and the count
   `onDataPacket` answers should it be called.
   */
  datatype Arrival =
    | NoDatagram
    | Datagram(length: nat, source: Address, valid: bool, frameType: int, dataBytes: int)

  /** The arrival is a frame the endpoint accepts. */
  predicate Accepted(a: Arrival) {
    a.Datagram? && a.valid
  }

  /** The arrival is an accepted DATA or PAD frame, the only kinds that count towards bytes received. */
  predicate CarriesData(a: Arrival) {
    Accepted(a) && (a.frameType == DataFrame || a.frameType == PadFrame)
  }

  /** Bytes received and collaborator calls of one poll. */
  datatype Polled = Polled(bytes: int, trace: seq<Event>)

  /** The callback `poll` fires for an accepted frame, chosen by its type tag; none for an unknown tag. */
  function TypeCallback(e: Entry, length: nat, source: Address, frameType: int, dataBytes: int): (r: seq<Event>)
    ensures Filter(r, IsTypeCallback) == r && Filter(r, IsHook) == [] && Receives(r) == []
    ensures DataTotal(r) == if frameType == DataFrame || frameType == PadFrame then dataBytes else 0
    ensures forall k :: 0 <= k < |r| ==> IsTypeCallback(r[k])
    ensures |r| <= 1
    ensures |r| == 1 <==> frameType in {DataFrame, PadFrame, SetupFrame, RttmFrame}
  {
    if frameType == DataFrame || frameType == PadFrame then
      var ev := DataPacket(e.endpoint, length, source, e.transportIndex, dataBytes);
      Single(ev);
      [ev]
    else if frameType == SetupFrame then
      var ev := SetupMessage(e.endpoint, length, source, e.transportIndex);
      Single(ev);
      [ev]
    else if frameType == RttmFrame then
      var ev := RttMeasurement(e.endpoint, length, source, e.transportIndex);
      Single(ev);
      [ev]
    else
      []
  }

  /**
   One poll of one entry: a receive on its transport and, when a datagram
   arrived, the endpoint's validity check and, for an accepted frame, the hook
   and the callback its type selects.
   */
  function Poll(e: Entry, a: Arrival): (r: Polled)
    ensures |r.trace| >= 1 && r.trace[0] == Receive(e)
    ensures SelectNow !in r.trace && ResetSelected !in r.trace
    ensures forall k :: 0 <= k < |r.trace| ==> IsPollCall(r.trace[k])
    ensures !Accepted(a) ==> r.bytes == 0
    ensures r.bytes != 0 ==> CarriesData(a) && r.bytes == a.dataBytes
    ensures CarriesData(a) ==> r.bytes == a.dataBytes
  {
    match a
    case NoDatagram => Polled(0, [Receive(e)])
    case Datagram(length, source, valid, frameType, dataBytes) =>
      if !valid then
        Polled(0, [Receive(e), ValidityCheck(e.endpoint, length)])
      else
        var bytes := if frameType == DataFrame || frameType == PadFrame then dataBytes else 0;
        Polled(bytes, [Receive(e), ValidityCheck(e.endpoint, length), Hook(e.endpoint, length, source)]
                      + TypeCallback(e, length, source, frameType, dataBytes))
  }

  /** The projections of the trace of a poll that found an accepted frame. */
  lemma AcceptedTrace(e: Entry, length: nat, source: Address, callbacks: seq<Event>)
    requires Filter(callbacks, IsTypeCallback) == callbacks && Filter(callbacks, IsHook) == [] && Receives(callbacks) == []
    ensures var t := [Receive(e), ValidityCheck(e.endpoint, length), Hook(e.endpoint, length, source)] + callbacks;
      && Receives(t) == [e]
      && DataTotal(t) == DataTotal(callbacks)
      && Filter(t, IsHook) == [Hook(e.endpoint, length, source)]
      && Filter(t, IsTypeCallback) == callbacks
      && Filter(t, IsFrameCallback) != []
  {
    var rcv, v, h := Receive(e), ValidityCheck(e.endpoint, length), Hook(e.endpoint, length, source);
    Cons3(rcv, v, h, callbacks, IsHook);
    Cons3(rcv, v, h, callbacks, IsTypeCallback);
    Cons3(rcv, v, h, callbacks, IsFrameCallback);
  }

  /** In the trace of a poll that found an accepted frame, the hook is the first frame callback and the type callbacks follow it. */
  lemma HookComesFirst(e: Entry, length: nat, source: Address, callbacks: seq<Event>)
    requires forall k :: 0 <= k < |callbacks| ==> IsTypeCallback(callbacks[k])
    ensures var t := [Receive(e), ValidityCheck(e.endpoint, length), Hook(e.endpoint, length, source)] + callbacks;
      Filter(t, IsFrameCallback) == [Hook(e.endpoint, length, source)] + callbacks
  {
    var rcv, v, h := Receive(e), ValidityCheck(e.endpoint, length), Hook(e.endpoint, length, source);
    Cons3(rcv, v, h, callbacks, IsFrameCallback);
    TypeCallbacksAreFrameCallbacks(callbacks);
  }

  /**
   A poll asks the endpoint's `isValidFrame` exactly once, with the received
   length, when a datagram arrived, and never otherwise.
   */
  lemma ValidityCheckedOnce(e: Entry, a: Arrival)
    ensures Filter(Poll(e, a).trace, IsValidityCheck) == if a.Datagram? then [ValidityCheck(e.endpoint, a.length)] else []
  {
    match a
    case NoDatagram =>
      Single(Receive(e));
    case Datagram(length, source, valid, frameType, dataBytes) =>
      var rcv, v := Receive(e), ValidityCheck(e.endpoint, length);
      if !valid {
        Single(v);
        Cons(rcv, [v]);
        assert [rcv] + [v] == [rcv, v];
      } else {
        var callbacks := TypeCallback(e, length, source, frameType, dataBytes);
        Cons3(rcv, v, Hook(e.endpoint, length, source), callbacks, IsValidityCheck);
        FilterNone(callbacks, IsValidityCheck);
      }
  }

  /** A run of type callbacks is all frame callbacks. */
  lemma {:induction false} TypeCallbacksAreFrameCallbacks(s: seq<Event>)
    requires forall k :: 0 <= k < |s| ==> IsTypeCallback(s[k])
    ensures Filter(s, IsFrameCallback) == s
    decreases |s|
  {
    if s != [] {
      assert s == [s[0]] + s[1..];
      TypeCallbacksAreFrameCallbacks(s[1..]);
      Cons(s[0], s[1..]);
    }
  }

  /** The projections of the trace of a poll that found no datagram or a rejected one. */
  lemma RejectedTrace(e: Entry, a: Arrival)
    requires !Accepted(a)
    ensures Receives(Poll(e, a).trace) == [e]
    ensures DataTotal(Poll(e, a).trace) == 0
    ensures Filter(Poll(e, a).trace, IsFrameCallback) == []
  {
    Single(Receive(e));
    if a.Datagram? {
      Single(ValidityCheck(e.endpoint, a.length));
      Cons(Receive(e), [ValidityCheck(e.endpoint, a.length)]);
      assert [Receive(e)] + [ValidityCheck(e.endpoint, a.length)] == [Receive(e), ValidityCheck(e.endpoint, a.length)];
    }
  }

  /**
   Every poll asks exactly its own entry's transport to receive, once, and the
   count it reports is what `onDataPacket` answered, or 0 when it was not called.
   */
  lemma PollReceivesOnce(e: Entry, a: Arrival)
    ensures Receives(Poll(e, a).trace) == [e]
    ensures Poll(e, a).bytes == DataTotal(Poll(e, a).trace)
  {
    if Accepted(a) {
      AcceptedTrace(e, a.length, a.source, TypeCallback(e, a.length, a.source, a.frameType, a.dataBytes));
    } else {
      RejectedTrace(e, a);
    }
  }

  /** A poll fires frame callbacks exactly when the endpoint accepted a datagram, and then the hook exactly once. */
  lemma CallbacksIffAccepted(e: Entry, a: Arrival)
    ensures Filter(Poll(e, a).trace, IsFrameCallback) != [] <==> Accepted(a)
    ensures Accepted(a) ==> Filter(Poll(e, a).trace, IsHook) == [Hook(e.endpoint, a.length, a.source)]
    ensures Accepted(a) ==>
      Filter(Poll(e, a).trace, IsFrameCallback) == [Hook(e.endpoint, a.length, a.source)] + Filter(Poll(e, a).trace, IsTypeCallback)
  {
    if Accepted(a) {
      AcceptedTrace(e, a.length, a.source, TypeCallback(e, a.length, a.source, a.frameType, a.dataBytes));
      HookComesFirst(e, a.length, a.source, TypeCallback(e, a.length, a.source, a.frameType, a.dataBytes));
    } else {
      RejectedTrace(e, a);
    }
  }

  /**
   The type callback of an accepted frame: DATA and PAD go to `onDataPacket`,
   whose answer is the poll's count; SETUP and RTTM go to their callbacks and
   count 0; any other tag fires no type callback and counts 0.
   */
  lemma PollRoutesByType(e: Entry, a: Arrival)
    requires Accepted(a)
    ensures var r := Poll(e, a);
      && (a.frameType == DataFrame || a.frameType == PadFrame ==>
            && Filter(r.trace, IsTypeCallback) == [DataPacket(e.endpoint, a.length, a.source, e.transportIndex, a.dataBytes)]
            && r.bytes == a.dataBytes)
      && (a.frameType == SetupFrame ==>
            && Filter(r.trace, IsTypeCallback) == [SetupMessage(e.endpoint, a.length, a.source, e.transportIndex)]
            && r.bytes == 0)
      && (a.frameType == RttmFrame ==>
            && Filter(r.trace, IsTypeCallback) == [RttMeasurement(e.endpoint, a.length, a.source, e.transportIndex)]
            && r.bytes == 0)
      && (a.frameType !in {DataFrame, PadFrame, SetupFrame, RttmFrame} ==>
            Filter(r.trace, IsTypeCallback) == [] && r.bytes == 0)
  {
    AcceptedTrace(e, a.length, a.source, TypeCallback(e, a.length, a.source, a.frameType, a.dataBytes));
  }
}

=== FILE: events.dfy ===
/**
 The observable effects of the poller: every call it makes into a
 collaborator (transport, receive channel endpoint, selector, error handler)
 recorded as one event, in call order. Traces are the poller's only output
 besides the byte count, so every property of the sweeps is a property of a
 trace or of a projection of one.
 */
module Events {
  import opened Registry

  /** Identity of the source address a datagram arrived from. */
  type Address = nat

  /** Identity of a Throwable handed to the error handler. */
  type ErrorId = nat

  /** Java's 64-bit `long`, for the nanosecond clock. */
  type Int64 = x: int | -0x8000_0000_0000_0000 <= x < 0x8000_0000_0000_0000

  datatype Event =
      /** `transport.receive(byteBuffer)` on the transport of this entry. */
    | Receive(entry: Entry)
      /** `isValidFrame(buffer, length)` asked of the endpoint. */
    | ValidityCheck(endpoint: ObjectId, length: nat)
      /** `receiveHook(buffer, length, srcAddress)`. */
    | Hook(endpoint: ObjectId, length: nat, source: Address)
      /** `onDataPacket(...)`, with the byte count it answered. */
    | DataPacket(endpoint: ObjectId, length: nat, source: Address, transportIndex: Int32, counted: int)
      /** `onSetupMessage(...)`. */
    | SetupMessage(endpoint: ObjectId, length: nat, source: Address, transportIndex: Int32)
      /** `onRttMeasurement(...)`. */
    | RttMeasurement(endpoint: ObjectId, length: nat, source: Address, transportIndex: Int32)
      /** `selector.selectNow()`. */
    | SelectNow
      /** `selectedKeySet.reset()`. */
    | ResetSelected
      /** `checkForReResolution(nowNs, conductorProxy)` on the endpoint. */
    | ReResolutionCheck(endpoint: ObjectId, nowNs: Int64, proxy: ObjectId)
      /** `closeMultiRcvDestination(poller)` on the endpoint. */
    | CloseMultiRcvDestination(endpoint: ObjectId)
      /** `close()` on the endpoint. */
    | CloseEndpoint(endpoint: ObjectId)
      /** `errorHandler.onError(throwable)` for the Throwable that the close call `call` threw. */
    | ErrorReported(call: Event, error: ErrorId)
      /** The base poller's own `close()`, which releases the selector. */
    | ClosePoller

  /** The frame observation hook. */
  predicate IsHook(ev: Event) {
    ev.Hook?
  }

  /** A callback chosen by the frame type. */
  predicate IsTypeCallback(ev: Event) {
    ev.DataPacket? || ev.SetupMessage? || ev.RttMeasurement?
  }

  /** Any callback fired for a frame the endpoint accepted. */
  predicate IsFrameCallback(ev: Event) {
    IsHook(ev) || IsTypeCallback(ev)
  }

  /** The endpoint's `isValidFrame` verdict being asked. */
  predicate IsValidityCheck(ev: Event) {
    ev.ValidityCheck?
  }

  /** A call `poll` may make: the receive, the validity check, or a frame callback. */
  predicate IsPollCall(ev: Event) {
    ev.Receive? || IsValidityCheck(ev) || IsFrameCallback(ev)
  }

  /** A call on the selector or its selected-key set. */
  predicate IsSelectorCall(ev: Event) {
    ev.SelectNow? || ev.ResetSelected?
  }

  /** A close call issued during shutdown, whether or not it threw. */
  predicate IsCloseCall(ev: Event) {
    ev.CloseMultiRcvDestination? || ev.CloseEndpoint? || ev.ClosePoller?
  }

  /** A failure forwarded to the error handler. */
  predicate IsErrorReport(ev: Event) {
    ev.ErrorReported?
  }

  /** The events of `trace` that satisfy `keep`, in trace order. */
  function Filter(trace: seq<Event>, keep: Event -> bool): (r: seq<Event>)
    ensures |r| <= |trace|
  {
    if trace == [] then []
    else (if keep(trace[0]) then [trace[0]] else []) + Filter(trace[1..], keep)
  }

  /** A trace none of whose events is kept filters to nothing. */
  lemma {:induction false} FilterNone(trace: seq<Event>, keep: Event -> bool)
    requires forall k :: 0 <= k < |trace| ==> !keep(trace[k])
    ensures Filter(trace, keep) == []
    decreases |trace|
  {
    if trace != [] {
      assert !keep(trace[0]);
      FilterNone(trace[1..], keep);
    }
  }

  /** Filtering distributes over concatenation. */
  lemma {:induction false} FilterConcat(a: seq<Event>, b: seq<Event>, keep: Event -> bool)
    ensures Filter(a + b, keep) == Filter(a, keep) + Filter(b, keep)
    decreases |a|
  {
    if a == [] {
      assert a + b == b;
    } else {
      assert (a + b)[1..] == a[1..] + b;
      FilterConcat(a[1..], b, keep);
      var head := if keep(a[0]) then [a[0]] else [];
      calc {
        Filter(a + b, keep);
        head + Filter(a[1..] + b, keep);
        head + (Filter(a[1..], keep) + Filter(b, keep));
        (head + Filter(a[1..], keep)) + Filter(b, keep);
      }
    }
  }

  /** Every projection of a trace unfolds one event at a time from the front. */
  lemma Cons(ev: Event, rest: seq<Event>)
    ensures forall keep: Event -> bool {:trigger Filter([ev] + rest, keep)} ::
      Filter([ev] + rest, keep) == (if keep(ev) then [ev] else []) + Filter(rest, keep)
    ensures Receives([ev] + rest) == (if ev.Receive? then [ev.entry] else []) + Receives(rest)
    ensures DataTotal([ev] + rest) == (if ev.DataPacket? then ev.counted else 0) + DataTotal(rest)
  {
    assert ([ev] + rest)[1..] == rest;
  }

  /** Every projection of a trace, `keep` among them, unfolds three leading events at once. */
  lemma Cons3(x: Event, y: Event, z: Event, rest: seq<Event>, keep: Event -> bool)
    ensures Filter([x, y, z] + rest, keep)
        == (if keep(x) then [x] else []) + ((if keep(y) then [y] else []) + ((if keep(z) then [z] else []) + Filter(rest, keep)))
    ensures Receives([x, y, z] + rest)
         == (if x.Receive? then [x.entry] else []) + ((if y.Receive? then [y.entry] else [])
            + ((if z.Receive? then [z.entry] else []) + Receives(rest)))
    ensures DataTotal([x, y, z] + rest)
         == (if x.DataPacket? then x.counted else 0) + (if y.DataPacket? then y.counted else 0)
            + (if z.DataPacket? then z.counted else 0) + DataTotal(rest)
  {
    var zs := [z] + rest;
    var yzs := [y] + zs;
    assert [x, y, z] + rest == [x] + yzs;
    Cons(z, rest);
    Cons(y, zs);
    Cons(x, yzs);
  }

  /** The projections of a trace of one event. */
  lemma Single(ev: Event)
    ensures forall keep: Event -> bool {:trigger Filter([ev], keep)} ::
      Filter([ev], keep) == if keep(ev) then [ev] else []
    ensures Receives([ev]) == if ev.Receive? then [ev.entry] else []
    ensures DataTotal([ev]) == if ev.DataPacket? then ev.counted else 0
  {
    Cons(ev, []);
    assert [ev] + [] == [ev];
  }

  /** The entries whose transport was asked to receive, in call order. */
  function Receives(trace: seq<Event>): seq<Entry> {
    if trace == [] then []
    else (if trace[0].Receive? then [trace[0].entry] else []) + Receives(trace[1..])
  }

  lemma {:induction false} ReceivesConcat(a: seq<Event>, b: seq<Event>)
    ensures Receives(a + b) == Receives(a) + Receives(b)
    decreases |a|
  {
    if a == [] {
      assert a + b == b;
    } else {
      assert (a + b)[1..] == a[1..] + b;
      ReceivesConcat(a[1..], b);
      var head := if a[0].Receive? then [a[0].entry] else [];
      calc {
        Receives(a + b);
        head + Receives(a[1..] + b);
        head + (Receives(a[1..]) + Receives(b));
        (head + Receives(a[1..])) + Receives(b);
      }
    }
  }

  /** The sum of the byte counts answered by every `onDataPacket` call in the trace. */
  function DataTotal(trace: seq<Event>): int {
    if trace == [] then 0
    else (if trace[0].DataPacket? then trace[0].counted else 0) + DataTotal(trace[1..])
  }

  lemma {:induction false} DataTotalConcat(a: seq<Event>, b: seq<Event>)
    ensures DataTotal(a + b) == DataTotal(a) + DataTotal(b)
    decreases |a|
  {
    if a == [] {
      assert a + b == b;
    } else {
      assert (a + b)[1..] == a[1..] + b;
      DataTotalConcat(a[1..], b);
    }
  }
}

=== FILE: poll_loop.dfy ===
/**
 `pollTransports`: while the registry has at most the iteration threshold
 entries, every entry is polled once, in registry order; above it the selector
 adds the newly readable channels to the selected-key set, every key in that
 set is polled in key order, and the set is reset. The result is the sum of
 the counts of the polls.
 */
module PollLoop {
  import opened Results
  import opened Registry
  import opened Events
  import opened Dispatch
  import opened Seqs

  /**
   What `selector.selectNow()` does to the selected-key set: it appends the
   entries attached to the keys that became ready, in key order, or it raises
   an I/O failure and leaves the set as it was.
   */
  datatype SelectOutcome = Selected(ready: seq<Entry>) | SelectFailed(error: ErrorId)

  /** One tick: bytes received, collaborator calls, and the selected-key set afterwards. */
  datatype Tick = Tick(bytesReceived: int, trace: seq<Event>, selectedKeys: seq<Entry>)

  /** A tick cut short by a failing `selectNow`: the rethrown failure and the selected-key set it leaves behind. */
  datatype Fault = Fault(error: ErrorId, selectedKeys: seq<Entry>)

  /**
   The entries a tick polls, in order: the registry at or below the threshold;
   above it, the selected-key set as `selectNow` leaves it, or nothing when it fails.
   */
  function Targets(entries: seq<Entry>, threshold: int, selectedKeys: seq<Entry>, select: SelectOutcome): seq<Entry> {
    if |entries| <= threshold then entries
    else match select
      case Selected(ready) => selectedKeys + ready
      case SelectFailed(_) => []
  }

  /**
   Reference count of a run of polls, read off the arrivals alone: the sum of
   what `onDataPacket` answers for every accepted DATA or PAD frame.
   */
  function DataBytes(arrivals: seq<Arrival>): int {
    if arrivals == [] then 0
    else (if CarriesData(arrivals[0]) then arrivals[0].dataBytes else 0) + DataBytes(arrivals[1..])
  }

  /**
   Polls `targets` in order, the k-th poll finding `arrivals[k]`, and sums the
   counts: every target's transport is asked to receive exactly once, in
   order, and the sum is what `onDataPacket` answered for the accepted DATA
   and PAD frames among the arrivals.
   */
  function PollEach(targets: seq<Entry>, arrivals: seq<Arrival>): (r: Polled)
    requires |arrivals| == |targets|
    ensures Receives(r.trace) == targets
    ensures r.bytes == DataTotal(r.trace)
    ensures r.bytes == DataBytes(arrivals)
    ensures forall k :: 0 <= k < |r.trace| ==> IsPollCall(r.trace[k])
    decreases |targets|
  {
    if targets == [] then Polled(0, [])
    else
      var first := Poll(targets[0], arrivals[0]);
      var rest := PollEach(targets[1..], arrivals[1..]);
      PollReceivesOnce(targets[0], arrivals[0]);
      ReceivesConcat(first.trace, rest.trace);
      DataTotalConcat(first.trace, rest.trace);
      assert targets == [targets[0]] + targets[1..];
      Polled(first.bytes + rest.bytes, first.trace + rest.trace)
  }

  /**
   `pollTransports()` given the iteration threshold, the selected-key set on
   entry, what `selectNow` does, and what each poll finds. A failing
   `selectNow` is rethrown before anything is polled and the set is not reset.
   */
  function PollTransports(
    entries: seq<Entry>, threshold: int, selectedKeys: seq<Entry>, select: SelectOutcome, arrivals: seq<Arrival>
  ): (r: Result<Tick, Fault>)
    requires |arrivals| == |Targets(entries, threshold, selectedKeys, select)|
    ensures |entries| <= threshold ==>
      && r.Success?
      && Receives(r.value.trace) == entries
      && SelectNow !in r.value.trace && ResetSelected !in r.value.trace
      && r.value.selectedKeys == selectedKeys
    ensures |entries| > threshold && select.SelectFailed? ==> r == Failure(Fault(select.error, selectedKeys))
    ensures |entries| > threshold && select.Selected? ==>
      && r.Success?
      && Receives(r.value.trace) == selectedKeys + select.ready
      && |r.value.trace| >= 2
      && r.value.trace[0] == SelectNow
      && r.value.trace[|r.value.trace| - 1] == ResetSelected
      && r.value.selectedKeys == []
    ensures r.Success? ==> r.value.bytesReceived == DataTotal(r.value.trace)
    ensures r.Success? ==> r.value.bytesReceived == DataBytes(arrivals)
    ensures r.Success? ==>
      Filter(r.value.trace, IsFrameCallback) == FrameCallbacks(Targets(entries, threshold, selectedKeys, select), arrivals)
    ensures |entries| <= threshold ==> Filter(r.value.trace, IsSelectorCall) == []
    ensures |entries| > threshold && select.Selected? ==> Filter(r.value.trace, IsSelectorCall) == [SelectNow, ResetSelected]
    ensures r.Success? ==> forall k :: 0 <= k < |r.value.trace| ==> IsPollCall(r.value.trace[k]) || IsSelectorCall(r.value.trace[k])
  {
    if |entries| <= threshold then
      var polled := PollEach(entries, arrivals);
      NoSelectorCalls(entries, arrivals);
      PollsMakeNoSelectorCall(entries, arrivals);
      CallbacksFollowArrivals(entries, arrivals);
      Success(Tick(polled.bytes, polled.trace, selectedKeys))
    else
      match select
      case SelectFailed(error) => Failure(Fault(error, selectedKeys))
      case Selected(ready) =>
        var polled := PollEach(selectedKeys + ready, arrivals);
        var trace := [SelectNow] + polled.trace + [ResetSelected];
        Cons(SelectNow, polled.trace);
        ReceivesConcat([SelectNow] + polled.trace, [ResetSelected]);
        DataTotalConcat([SelectNow] + polled.trace, [ResetSelected]);
        Single(ResetSelected);
        SelectingTickCalls(selectedKeys + ready, arrivals);
        SelectingTickMakesNoOtherCall(selectedKeys + ready, arrivals);
        Success(Tick(polled.bytes, trace, []))
  }

  /** A tick through the selector makes poll calls and selector calls, nothing else. */
  lemma SelectingTickMakesNoOtherCall(targets: seq<Entry>, arrivals: seq<Arrival>)
    requires |arrivals| == |targets|
    ensures var t := [SelectNow] + PollEach(targets, arrivals).trace + [ResetSelected];
      forall k :: 0 <= k < |t| ==> IsPollCall(t[k]) || IsSelectorCall(t[k])
  {
    var polled := PollEach(targets, arrivals).trace;
    var t := [SelectNow] + polled + [ResetSelected];
    forall k | 0 <= k < |t|
      ensures IsPollCall(t[k]) || IsSelectorCall(t[k])
    {
      if 0 < k < |t| - 1 {
        assert t[k] == polled[k - 1];
      }
    }
  }

  /** A run of polls makes no selector call. */
  lemma PollsMakeNoSelectorCall(targets: seq<Entry>, arrivals: seq<Arrival>)
    requires |arrivals| == |targets|
    ensures Filter(PollEach(targets, arrivals).trace, IsSelectorCall) == []
  {
    var trace := PollEach(targets, arrivals).trace;
    NoSelectorCalls(targets, arrivals);
    forall k | 0 <= k < |trace|
      ensures !IsSelectorCall(trace[k])
    {
      assert trace[k] in trace;
    }
    FilterNone(trace, IsSelectorCall);
  }

  /**
   A tick through the selector fires the frame callbacks of its polls and
   makes exactly two selector calls: `selectNow` first, the reset last.
   */
  lemma SelectingTickCalls(targets: seq<Entry>, arrivals: seq<Arrival>)
    requires |arrivals| == |targets|
    ensures var t := [SelectNow] + PollEach(targets, arrivals).trace + [ResetSelected];
      && Filter(t, IsFrameCallback) == FrameCallbacks(targets, arrivals)
      && Filter(t, IsSelectorCall) == [SelectNow, ResetSelected]
  {
    var polled := PollEach(targets, arrivals).trace;
    CallbacksFollowArrivals(targets, arrivals);
    PollsMakeNoSelectorCall(targets, arrivals);
    Cons(SelectNow, polled);
    FilterConcat([SelectNow] + polled, [ResetSelected], IsFrameCallback);
    FilterConcat([SelectNow] + polled, [ResetSelected], IsSelectorCall);
    Single(ResetSelected);
  }

  /** Direct iteration never touches the selector: a poll trace holds no selector call. */
  lemma {:induction false} NoSelectorCalls(targets: seq<Entry>, arrivals: seq<Arrival>)
    requires |arrivals| == |targets|
    ensures SelectNow !in PollEach(targets, arrivals).trace
    ensures ResetSelected !in PollEach(targets, arrivals).trace
    decreases |targets|
  {
    if targets != [] {
      NoSelectorCalls(targets[1..], arrivals[1..]);
      var first := Poll(targets[0], arrivals[0]);
      var rest := PollEach(targets[1..], arrivals[1..]);
      assert PollEach(targets, arrivals).trace == first.trace + rest.trace;
    }
  }

  /** Polling a non-empty run of targets is polling its head, then the rest. */
  lemma PollEachUnfolds(targets: seq<Entry>, arrivals: seq<Arrival>)
    requires |arrivals| == |targets| > 0
    ensures PollEach(targets, arrivals).trace
         == Poll(targets[0], arrivals[0]).trace + PollEach(targets[1..], arrivals[1..]).trace
    ensures PollEach(targets, arrivals).bytes
         == Poll(targets[0], arrivals[0]).bytes + PollEach(targets[1..], arrivals[1..]).bytes
  {
  }

  /** The head and the rest of a concatenation whose first part is not empty. */
  lemma ConcatParts(t1: seq<Entry>, a1: seq<Arrival>, t2: seq<Entry>, a2: seq<Arrival>)
    requires |a1| == |t1| > 0 && |a2| == |t2|
    ensures PollEach((t1 + t2)[1..], (a1 + a2)[1..]) == PollEach(t1[1..] + t2, a1[1..] + a2)
    ensures Poll((t1 + t2)[0], (a1 + a2)[0]) == Poll(t1[0], a1[0])
  {
    TailOfConcat(t1, t2);
    TailOfConcat(a1, a2);
  }

  /**
   Polling two runs of targets one after the other is polling their
   concatenation: the traces concatenate.
   */
  lemma {:induction false} PollEachSplits(t1: seq<Entry>, a1: seq<Arrival>, t2: seq<Entry>, a2: seq<Arrival>)
    requires |a1| == |t1| && |a2| == |t2|
    ensures PollEach(t1 + t2, a1 + a2).trace == PollEach(t1, a1).trace + PollEach(t2, a2).trace
    decreases |t1|
  {
    if t1 == [] {
      assert t1 + t2 == t2 && a1 + a2 == a2;
    } else {
      var first := Poll(t1[0], a1[0]).trace;
      var rest1, rest2 := PollEach(t1[1..], a1[1..]).trace, PollEach(t2, a2).trace;
      var tail := PollEach(t1[1..] + t2, a1[1..] + a2).trace;
      PollEachUnfolds(t1 + t2, a1 + a2);
      ConcatParts(t1, a1, t2, a2);
      PollEachSplits(t1[1..], a1[1..], t2, a2);
      PollEachUnfolds(t1, a1);
      Regroup(PollEach(t1 + t2, a1 + a2).trace, first, tail, rest1, rest2, PollEach(t1, a1).trace);
    }
  }

  /** The count of a concatenation of runs of targets is the sum of the counts of the runs. */
  lemma {:induction false} PollEachAdds(t1: seq<Entry>, a1: seq<Arrival>, t2: seq<Entry>, a2: seq<Arrival>)
    requires |a1| == |t1| && |a2| == |t2|
    ensures PollEach(t1 + t2, a1 + a2).bytes == PollEach(t1, a1).bytes + PollEach(t2, a2).bytes
    decreases |t1|
  {
    if t1 == [] {
      assert t1 + t2 == t2 && a1 + a2 == a2;
    } else {
      PollEachUnfolds(t1 + t2, a1 + a2);
      ConcatParts(t1, a1, t2, a2);
      PollEachAdds(t1[1..], a1[1..], t2, a2);
      PollEachUnfolds(t1, a1);
    }
  }

  /** The frame callbacks each target's own poll fires for its arrival, target after target. */
  function FrameCallbacks(targets: seq<Entry>, arrivals: seq<Arrival>): seq<Event>
    requires |arrivals| == |targets|
    decreases |targets|
  {
    if targets == [] then []
    else Filter(Poll(targets[0], arrivals[0]).trace, IsFrameCallback) + FrameCallbacks(targets[1..], arrivals[1..])
  }

  /**
   The frame callbacks of a run of polls are those of the k-th target's poll
   of the k-th arrival, in target order: no callback is lost, moved to
   another endpoint or fired for an arrival it does not belong to.
   */
  lemma {:induction false} CallbacksFollowArrivals(targets: seq<Entry>, arrivals: seq<Arrival>)
    requires |arrivals| == |targets|
    ensures Filter(PollEach(targets, arrivals).trace, IsFrameCallback) == FrameCallbacks(targets, arrivals)
    decreases |targets|
  {
    if targets != [] {
      CallbacksFollowArrivals(targets[1..], arrivals[1..]);
      PollEachUnfolds(targets, arrivals);
      FilterConcat(Poll(targets[0], arrivals[0]).trace, PollEach(targets[1..], arrivals[1..]).trace, IsFrameCallback);
    }
  }

  /** A run of polls fires no frame callback at all exactly when no arrival is a frame its endpoint accepts. */
  lemma {:induction false} SilentIffNoneAccepted(targets: seq<Entry>, arrivals: seq<Arrival>)
    requires |arrivals| == |targets|
    ensures FrameCallbacks(targets, arrivals) == [] <==> forall k :: 0 <= k < |arrivals| ==> !Accepted(arrivals[k])
    decreases |targets|
  {
    if targets != [] {
      SilentIffNoneAccepted(targets[1..], arrivals[1..]);
      CallbacksIffAccepted(targets[0], arrivals[0]);
      if forall k :: 0 <= k < |arrivals| ==> !Accepted(arrivals[k]) {
        assert forall k :: 0 <= k < |arrivals[1..]| ==> !Accepted(arrivals[1..][k]) by {
          forall k | 0 <= k < |arrivals[1..]|
            ensures !Accepted(arrivals[1..][k])
          {
            assert arrivals[1..][k] == arrivals[k + 1];
          }
        }
      }
      if FrameCallbacks(targets, arrivals) == [] {
        forall k | 0 <= k < |arrivals|
          ensures !Accepted(arrivals[k])
        {
          if k > 0 {
            assert arrivals[k] == arrivals[1..][k - 1];
          }
        }
      }
    }
  }

  /** A tick in which no poll finds an accepted DATA or PAD frame receives 0 bytes. */
  lemma {:induction false} QuietPollsCountZero(targets: seq<Entry>, arrivals: seq<Arrival>)
    requires |arrivals| == |targets|
    requires forall k :: 0 <= k < |arrivals| ==> !CarriesData(arrivals[k])
    ensures PollEach(targets, arrivals).bytes == 0
    decreases |targets|
  {
    if targets != [] {
      QuietPollsCountZero(targets[1..], arrivals[1..]);
    }
  }

  /**
   The reset matters for the next tick: after a tick above the threshold, a
   second tick whose `selectNow` reports nothing newly ready polls nothing and
   receives 0 bytes.
   */
  lemma ResetClearsReadiness(
    entries: seq<Entry>, threshold: int, selectedKeys: seq<Entry>, ready: seq<Entry>, arrivals: seq<Arrival>)
    requires |entries| > threshold
    requires |arrivals| == |selectedKeys + ready|
    ensures var first := PollTransports(entries, threshold, selectedKeys, Selected(ready), arrivals);
      && first.Success?
      && var second := PollTransports(entries, threshold, first.value.selectedKeys, Selected([]), []);
      && second.Success? && second.value.bytesReceived == 0 && Receives(second.value.trace) == []
  {
  }

  /**
   A failing `selectNow` skips the reset, so the keys selected before it are
   polled again, ahead of the newly ready ones, by the next tick whose
   `selectNow` succeeds.
   */
  lemma FailureKeepsSelectedKeys(
    entries: seq<Entry>, threshold: int, selectedKeys: seq<Entry>, error: ErrorId, ready: seq<Entry>, arrivals: seq<Arrival>)
    requires |entries| > threshold
    requires |arrivals| == |selectedKeys + ready|
    ensures var first := PollTransports(entries, threshold, selectedKeys, SelectFailed(error), []);
      && first.Failure?
      && var second := PollTransports(entries, threshold, first.error.selectedKeys, Selected(ready), arrivals);
      && second.Success? && Receives(second.value.trace) == selectedKeys + ready
  {
  }

  /**
   Two registered transports under distinct endpoints, a threshold of 1 and
   only the second transport ready: only the second is polled and the tick
   receives what its endpoint's `onDataPacket` answered.
   */
  lemma OnlyReadyTransportIsPolled(length: nat, source: Address, counted: int)
    ensures var first := Entry(10, 20, 0);
      var second := Entry(11, 21, 1);
      var r := PollTransports([first, second], 1, [], Selected([second]),
                              [Datagram(length, source, true, DataFrame, counted)]);
      && r.Success?
      && Receives(r.value.trace) == [second]
      && r.value.bytesReceived == counted
  {
    var second := Entry(11, 21, 1);
    var a := Datagram(length, source, true, DataFrame, counted);
    PollRoutesByType(second, a);
  }
}

=== FILE: registry.dfy ===
/**
 The transport registry of the data transport poller: an ordered array of
 (receive channel endpoint, UDP channel transport, transport index) triples.
 Registering appends a triple once the transport's datagram channel has been
 attached to the selector; cancelling removes the first triple whose endpoint
 and transport are both the given objects, compared by reference.
 */
module Registry {
  import opened Results

  /** Identity of a Java object; two ids are equal exactly when `==` on the references is true. */
  type ObjectId = nat

  /** Java's 32-bit `int`. */
  type Int32 = x: int | -0x8000_0000 <= x < 0x8000_0000

  /**
   One registered receive path. Every field is final in the source, so an
   entry is never changed after it is built; a datatype value cannot be either.
   */
  datatype Entry = Entry(endpoint: ObjectId, transport: ObjectId, transportIndex: Int32)

  /** Outcome of attaching a transport's datagram channel to the selector for reads. */
  datatype Attach = Attached(key: ObjectId) | AttachClosed

  /** The only failure registration can raise: the datagram channel was already closed. */
  datatype RegisterError = ClosedChannel

  /** A successful registration: the new registry and the selection key handed back. */
  datatype Registration = Registration(entries: seq<Entry>, key: ObjectId)

  /** The cancel test: both the endpoint and the transport are the given objects. */
  predicate Matches(e: Entry, endpoint: ObjectId, transport: ObjectId) {
    e.endpoint == endpoint && e.transport == transport
  }

  /** Some entry of the registry is registered for the pair. */
  predicate Holds(entries: seq<Entry>, endpoint: ObjectId, transport: ObjectId) {
    exists k :: 0 <= k < |entries| && Matches(entries[k], endpoint, transport)
  }

  /** `i` is the first position the cancel scan stops at. */
  predicate IsFirstMatch(entries: seq<Entry>, endpoint: ObjectId, transport: ObjectId, i: int) {
    && 0 <= i < |entries|
    && Matches(entries[i], endpoint, transport)
    && forall k :: 0 <= k < i ==> !Matches(entries[k], endpoint, transport)
  }

  /** No (endpoint, transport) pair is registered twice. */
  predicate Unique(entries: seq<Entry>) {
    forall i, j :: 0 <= i < j < |entries| ==> !Matches(entries[i], entries[j].endpoint, entries[j].transport)
  }

  /**
   `registerForRead(endpoint, transport, transportIndex)`: the triple is
   appended only after the selector registration succeeds; a closed channel
   raises and leaves the registry as it was.
   */
  function RegisterForRead(
    entries: seq<Entry>, endpoint: ObjectId, transport: ObjectId, transportIndex: Int32, attach: Attach
  ): (r: Result<Registration, RegisterError>)
    ensures r.Failure? <==> attach.AttachClosed?
    ensures r.Success? ==>
      && r.value.key == attach.key
      && |r.value.entries| == |entries| + 1
      && r.value.entries[..|entries|] == entries
      && r.value.entries[|entries|] == Entry(endpoint, transport, transportIndex)
  {
    match attach
    case AttachClosed => Failure(ClosedChannel)
    case Attached(key) => Success(Registration(entries + [Entry(endpoint, transport, transportIndex)], key))
  }

  /**
   `registerForRead(transport)`: the transport is its own receive channel
   endpoint and is registered with transport index 0.
   */
  function RegisterSelfForRead(entries: seq<Entry>, transport: ObjectId, attach: Attach): (r: Result<Registration, RegisterError>)
    ensures r == RegisterForRead(entries, transport, transport, 0, attach)
    ensures r.Failure? <==> attach.AttachClosed?
    ensures r.Success? ==>
      && r.value.key == attach.key
      && |r.value.entries| == |entries| + 1
      && r.value.entries[..|entries|] == entries
      && r.value.entries[|entries|] == Entry(transport, transport, 0)
  {
    RegisterForRead(entries, transport, transport, 0, attach)
  }

  /**
   The cancel scan from position `from` onward: the first matching position,
   or None when no entry from there on matches.
   */
  function FindFrom(entries: seq<Entry>, endpoint: ObjectId, transport: ObjectId, from: nat): (r: Option<nat>)
    requires from <= |entries|
    ensures r.Some? ==>
      && from <= r.value < |entries|
      && Matches(entries[r.value], endpoint, transport)
      && forall k :: from <= k < r.value ==> !Matches(entries[k], endpoint, transport)
    ensures r.None? ==> forall k :: from <= k < |entries| ==> !Matches(entries[k], endpoint, transport)
    decreases |entries| - from
  {
    if from == |entries| then None
    else if Matches(entries[from], endpoint, transport) then Some(from)
    else FindFrom(entries, endpoint, transport, from + 1)
  }

  /** A copy of `s` without the element at `i`. */
  function RemoveAt(s: seq<Entry>, i: nat): (r: seq<Entry>)
    requires i < |s|
    ensures |r| == |s| - 1
    ensures multiset(r) + multiset{s[i]} == multiset(s)
  {
    assert s == s[..i] + [s[i]] + s[i+1..];
    s[..i] + s[i+1..]
  }

  /**
   `cancelRead(endpoint, transport)`: removes the first entry registered for
   the pair, keeping the others in order; a pair that is not registered is
   not an error and leaves the registry unchanged.
   */
  function CancelRead(entries: seq<Entry>, endpoint: ObjectId, transport: ObjectId): (r: seq<Entry>)
    ensures !Holds(entries, endpoint, transport) ==> r == entries
    ensures forall i {:trigger IsFirstMatch(entries, endpoint, transport, i)} ::
      IsFirstMatch(entries, endpoint, transport, i) ==>
        && r == entries[..i] + entries[i+1..]
        && multiset(r) + multiset{entries[i]} == multiset(entries)
    ensures Holds(entries, endpoint, transport) ==> |r| == |entries| - 1
    ensures forall e {:trigger multiset(r)[e]} :: !Matches(e, endpoint, transport) ==> multiset(r)[e] == multiset(entries)[e]
  {
    match FindFrom(entries, endpoint, transport, 0)
    case None => entries
    case Some(i) =>
      assert IsFirstMatch(entries, endpoint, transport, i);
      RemoveAt(entries, i)
  }

  /** `cancelRead(transport)`: the transport is its own receive channel endpoint. */
  function CancelSelfRead(entries: seq<Entry>, transport: ObjectId): (r: seq<Entry>)
    ensures r == CancelRead(entries, transport, transport)
    ensures !Holds(entries, transport, transport) ==> r == entries
    ensures forall i {:trigger IsFirstMatch(entries, transport, transport, i)} ::
      IsFirstMatch(entries, transport, transport, i) ==> r == entries[..i] + entries[i+1..]
  {
    CancelRead(entries, transport, transport)
  }

  /** Registering a pair that is not yet registered and then cancelling it gives back the original registry. */
  lemma CancelUndoesRegister(
    entries: seq<Entry>, endpoint: ObjectId, transport: ObjectId, transportIndex: Int32, key: ObjectId)
    requires !Holds(entries, endpoint, transport)
    ensures CancelRead(RegisterForRead(entries, endpoint, transport, transportIndex, Attached(key)).value.entries,
                       endpoint, transport) == entries
  {
    var grown := entries + [Entry(endpoint, transport, transportIndex)];
    assert IsFirstMatch(grown, endpoint, transport, |entries|) by {
      forall k | 0 <= k < |entries|
        ensures !Matches(grown[k], endpoint, transport)
      {
        assert grown[k] == entries[k];
      }
    }
    assert grown[..|entries|] == entries;
  }

  /**
   Registering a pair and then cancelling it leaves the registry at its
   original size, whether or not the pair was registered already: the cancel
   removes exactly one entry, the first that matches.
   */
  lemma RegisterThenCancelKeepsLength(
    entries: seq<Entry>, endpoint: ObjectId, transport: ObjectId, transportIndex: Int32, key: ObjectId)
    ensures |CancelRead(RegisterForRead(entries, endpoint, transport, transportIndex, Attached(key)).value.entries,
                        endpoint, transport)| == |entries|
  {
    var grown := RegisterForRead(entries, endpoint, transport, transportIndex, Attached(key)).value.entries;
    assert Matches(grown[|entries|], endpoint, transport);
    assert Holds(grown, endpoint, transport);
  }

  /** Registering a pair that is absent keeps the pairs unique. */
  lemma RegisterKeepsUnique(
    entries: seq<Entry>, endpoint: ObjectId, transport: ObjectId, transportIndex: Int32, key: ObjectId)
    requires Unique(entries)
    requires !Holds(entries, endpoint, transport)
    ensures Unique(RegisterForRead(entries, endpoint, transport, transportIndex, Attached(key)).value.entries)
  {
    var grown := entries + [Entry(endpoint, transport, transportIndex)];
    forall i, j | 0 <= i < j < |grown|
      ensures !Matches(grown[i], grown[j].endpoint, grown[j].transport)
    {
      if j == |entries| {
        assert grown[i] == entries[i];
      } else {
        assert grown[i] == entries[i] && grown[j] == entries[j];
      }
    }
  }

  /** Removing one element keeps every remaining pair unique. */
  lemma RemoveAtKeepsUnique(entries: seq<Entry>, i: nat)
    requires i < |entries|
    requires Unique(entries)
    ensures Unique(RemoveAt(entries, i))
  {
    var r := RemoveAt(entries, i);
    forall a, b | 0 <= a < b < |r|
      ensures !Matches(r[a], r[b].endpoint, r[b].transport)
    {
      var a' := if a < i then a else a + 1;
      var b' := if b < i then b else b + 1;
      assert r[a] == entries[a'] && r[b] == entries[b'];
    }
  }

  /** Cancelling keeps the pairs unique. */
  lemma CancelKeepsUnique(entries: seq<Entry>, endpoint: ObjectId, transport: ObjectId)
    requires Unique(entries)
    ensures Unique(CancelRead(entries, endpoint, transport))
  {
    match FindFrom(entries, endpoint, transport, 0)
    case None =>
    case Some(i) => RemoveAtKeepsUnique(entries, i);
  }

  /** In a registry without duplicate pairs, cancelling a pair leaves no entry registered for it. */
  lemma CancelClearsPair(entries: seq<Entry>, endpoint: ObjectId, transport: ObjectId)
    requires Unique(entries)
    ensures !Holds(CancelRead(entries, endpoint, transport), endpoint, transport)
  {
    match FindFrom(entries, endpoint, transport, 0)
    case None =>
    case Some(i) =>
      var r := RemoveAt(entries, i);
      forall k | 0 <= k < |r|
        ensures !Matches(r[k], endpoint, transport)
      {
        if k < i {
          assert r[k] == entries[k];
        } else {
          assert r[k] == entries[k + 1];
          assert !Matches(entries[i], entries[k + 1].endpoint, entries[k + 1].transport);
        }
      }
  }

  /** Cancelling twice is cancelling once when pairs are unique: teardown may safely repeat a cancel. */
  lemma CancelIsIdempotent(entries: seq<Entry>, endpoint: ObjectId, transport: ObjectId)
    requires Unique(entries)
    ensures CancelRead(CancelRead(entries, endpoint, transport), endpoint, transport)
         == CancelRead(entries, endpoint, transport)
  {
    CancelClearsPair(entries, endpoint, transport);
  }
}

=== FILE: results.dfy ===
/** Wrappers shared by the poller model. */
module Results {

  /** A value that may be absent, used for "no matching index". */
  datatype Option<+T> = None | Some(value: T)

  /** Either a value or the error the source raises instead of returning one. */
  datatype Result<+T, +E> = Success(value: T) | Failure(error: E)
}

=== FILE: seqs.dfy ===
/** Facts about sequence concatenation that the trace proofs use. */
module Seqs {
  /** Regrouping a three-part concatenation. */
  lemma Regroup<T>(whole: seq<T>, head: seq<T>, tail: seq<T>, mid: seq<T>, last: seq<T>, front: seq<T>)
    requires whole == head + tail && tail == mid + last && front == head + mid
    ensures whole == front + last
  {
  }

  /** Concatenation is associative. */
  lemma Associative<T>(a: seq<T>, b: seq<T>, c: seq<T>)
    ensures a + (b + c) == (a + b) + c
  {
  }

  /** Dropping the head of a concatenation drops the head of its first part. */
  lemma TailOfConcat<T>(x: seq<T>, y: seq<T>)
    requires |x| > 0
    ensures (x + y)[1..] == x[1..] + y
  {
  }
}

=== FILE: sweeps.dfy ===
/**
 The two fan-out sweeps over the registry: `checkForReResolutions`, which
 asks every endpoint whether its destination needs re-resolving, and `close`,
 which closes every endpoint's multi-destination receive transports and the
 endpoint itself on a best-effort basis before closing the base poller.
 */
module Sweeps {
  import opened Registry
  import opened Events
  import opened Seqs

  /**
   `checkForReResolutions(nowNs, conductorProxy)`: one re-resolution check per
   entry, on that entry's endpoint, in registry order, with the clock and proxy
   passed through; the sweep makes no other call.
   */
  method CheckForReResolutions(entries: seq<Entry>, nowNs: Int64, proxy: ObjectId) returns (trace: seq<Event>)
    ensures |trace| == |entries|
    ensures forall k :: 0 <= k < |entries| ==> trace[k] == ReResolutionCheck(entries[k].endpoint, nowNs, proxy)
  {
    trace := [];
    for k := 0 to |entries|
      invariant |trace| == k
      invariant forall j :: 0 <= j < k ==> trace[j] == ReResolutionCheck(entries[j].endpoint, nowNs, proxy)
    {
      trace := trace + [ReResolutionCheck(entries[k].endpoint, nowNs, proxy)];
    }
  }

  /** How one close call ends: it returns, or it throws the given Throwable. */
  datatype CloseAttempt = Closed | Threw(error: ErrorId)

  /** How the two close calls made for one entry end. */
  datatype EntryClose = EntryClose(multiRcv: CloseAttempt, endpoint: CloseAttempt)

  /** The error-handler report the close call `call` leads to, if any. */
  function Report(call: Event, outcome: CloseAttempt): seq<Event> {
    match outcome
    case Closed => []
    case Threw(error) => [ErrorReported(call, error)]
  }

  /**
   The shutdown makes no call but close calls and error reports, and every
   report comes directly after a close call: the one whose failure it reports.
   */
  predicate ReportsFollowCalls(trace: seq<Event>) {
    && (forall k :: 0 <= k < |trace| ==> IsCloseCall(trace[k]) || IsErrorReport(trace[k]))
    && (forall k :: 0 <= k < |trace| && IsErrorReport(trace[k]) ==>
          0 < k && IsCloseCall(trace[k - 1]) && trace[k].call == trace[k - 1])
  }

  /**
   For every error report in `trace`, in order, the number of close calls made
   before it. A report made right after the n-th close call shows n.
   */
  function CallsBeforeReports(trace: seq<Event>): seq<nat>
    decreases |trace|
  {
    if trace == [] then []
    else
      var n := |trace| - 1;
      CallsBeforeReports(trace[..n]) + (if IsErrorReport(trace[n]) then [|Filter(trace[..n], IsCloseCall)|] else [])
  }

  /**
   Appending one event adds its count of earlier close calls if it is a
   report, and nothing otherwise; it adds one close call if it is one.
   */
  lemma CallsBeforeReportsSnoc(trace: seq<Event>, ev: Event)
    ensures CallsBeforeReports(trace + [ev])
         == CallsBeforeReports(trace) + (if IsErrorReport(ev) then [|Filter(trace, IsCloseCall)|] else [])
    ensures |Filter(trace + [ev], IsCloseCall)| == |Filter(trace, IsCloseCall)| + (if IsCloseCall(ev) then 1 else 0)
  {
    assert (trace + [ev])[..|trace|] == trace;
    FilterConcat(trace, [ev], IsCloseCall);
    Single(ev);
  }

  /** There is one count per report. */
  lemma {:induction false} CallsBeforeReportsCount(trace: seq<Event>)
    ensures |CallsBeforeReports(trace)| == |Filter(trace, IsErrorReport)|
    decreases |trace|
  {
    if trace != [] {
      var n := |trace| - 1;
      CallsBeforeReportsCount(trace[..n]);
      assert trace == trace[..n] + [trace[n]];
      FilterConcat(trace[..n], [trace[n]], IsErrorReport);
      Single(trace[n]);
    }
  }

  /**
   What the counts say position by position: the report at position `p`, the
   j-th report of the trace, has exactly the j-th count of close calls before it.
   */
  lemma {:induction false} ReportAt(trace: seq<Event>, p: nat)
    requires p < |trace| && IsErrorReport(trace[p])
    ensures |Filter(trace[..p], IsErrorReport)| < |CallsBeforeReports(trace)|
    ensures CallsBeforeReports(trace)[|Filter(trace[..p], IsErrorReport)|] == |Filter(trace[..p], IsCloseCall)|
    decreases |trace|
  {
    var n := |trace| - 1;
    if p == n {
      CallsBeforeReportsCount(trace[..n]);
    } else {
      ReportAt(trace[..n], p);
      assert trace[..n][..p] == trace[..p];
    }
  }

  /**
   The numbers, counting from 1 in call order, of the close calls that threw
   when closing ends as `outcomes`: entry k's two calls are numbers 2k+1 and 2k+2.
   */
  function ThrowingCalls(outcomes: seq<EntryClose>): seq<nat>
    decreases |outcomes|
  {
    if outcomes == [] then []
    else
      var n := |outcomes| - 1;
      ThrowingCalls(outcomes[..n]) + EntryThrowingCalls(outcomes[n], 2 * n)
  }

  /**
   The numbers of one entry's close calls that threw, `before` calls having
   been made ahead of them: the multi-destination close is call before+1,
   the endpoint close call before+2.
   */
  function EntryThrowingCalls(outcome: EntryClose, before: nat): seq<nat> {
    (if outcome.multiRcv.Threw? then [before + 1] else []) + (if outcome.endpoint.Threw? then [before + 2] else [])
  }

  /** Two shutdown stretches in which reports follow calls make one such stretch. */
  lemma ReportsFollowCallsConcat(a: seq<Event>, b: seq<Event>)
    requires ReportsFollowCalls(a) && ReportsFollowCalls(b)
    ensures ReportsFollowCalls(a + b)
  {
    var t := a + b;
    forall k | 0 <= k < |t|
      ensures IsCloseCall(t[k]) || IsErrorReport(t[k])
    {
      if k < |a| {
        assert t[k] == a[k];
      } else {
        assert t[k] == b[k - |a|];
      }
    }
    forall k | 0 <= k < |t| && IsErrorReport(t[k])
      ensures 0 < k && IsCloseCall(t[k - 1]) && t[k].call == t[k - 1]
    {
      if k < |a| {
        assert t[k] == a[k];
        assert 0 < k && t[k - 1] == a[k - 1];
      } else {
        assert t[k] == b[k - |a|];
        assert 0 < k - |a| && t[k - 1] == b[k - |a| - 1];
      }
    }
  }

  /** What a close call's report contributes: no close call, itself as the reports, placed right after the call. */
  lemma ReportAfter(call: Event, outcome: CloseAttempt)
    requires IsCloseCall(call)
    ensures Filter(Report(call, outcome), IsCloseCall) == []
    ensures Filter(Report(call, outcome), IsErrorReport) == Report(call, outcome)
    ensures ReportsFollowCalls([call] + Report(call, outcome))
  {
    match outcome
    case Closed =>
      assert [call] + Report(call, outcome) == [call];
    case Threw(error) =>
      Single(ErrorReported(call, error));
  }

  /**
   `CloseHelper.close(errorHandler, ...)`: the call, then, if it threw, the
   Throwable handed to the error handler instead of propagating.
   */
  function Attempt(call: Event, outcome: CloseAttempt): (r: seq<Event>)
    requires IsCloseCall(call)
    ensures Filter(r, IsCloseCall) == [call]
    ensures Filter(r, IsErrorReport) == Report(call, outcome)
    ensures ReportsFollowCalls(r)
  {
    Cons(call, Report(call, outcome));
    ReportAfter(call, outcome);
    [call] + Report(call, outcome)
  }

  /** A guarded close that throws is reported once exactly one more close call has been made. */
  lemma AttemptPinned(trace: seq<Event>, call: Event, outcome: CloseAttempt)
    requires IsCloseCall(call)
    ensures |Filter(trace + Attempt(call, outcome), IsCloseCall)| == |Filter(trace, IsCloseCall)| + 1
    ensures CallsBeforeReports(trace + Attempt(call, outcome))
         == CallsBeforeReports(trace) + (if outcome.Threw? then [|Filter(trace, IsCloseCall)| + 1] else [])
  {
    var called := trace + [call];
    var t := trace + Attempt(call, outcome);
    CallsBeforeReportsSnoc(trace, call);
    match outcome
    case Closed =>
      assert Report(call, outcome) == [];
      assert t == called;
    case Threw(error) =>
      var report := ErrorReported(call, error);
      assert Report(call, outcome) == [report];
      assert t == called + [report];
      CallsBeforeReportsSnoc(called, report);
  }

  /**
   The close calls the sweep issues for `entries`, whatever they throw:
   `closeMultiRcvDestination` then `close` on each endpoint, in registry order.
   */
  function CloseCalls(entries: seq<Entry>): seq<Event>
    decreases |entries|
  {
    if entries == [] then []
    else
      var last := entries[|entries| - 1];
      CloseCalls(entries[..|entries| - 1]) + [CloseMultiRcvDestination(last.endpoint), CloseEndpoint(last.endpoint)]
  }

  /**
   The failures the sweep reports when closing `entries` ends as `outcomes`,
   each tagged with the call that threw, in the order the calls were made.
   */
  function Failures(entries: seq<Entry>, outcomes: seq<EntryClose>): seq<Event>
    requires |outcomes| == |entries|
    decreases |outcomes|
  {
    if outcomes == [] then []
    else
      var n := |outcomes| - 1;
      var e, last := entries[n], outcomes[n];
      Failures(entries[..n], outcomes[..n])
        + Report(CloseMultiRcvDestination(e.endpoint), last.multiRcv) + Report(CloseEndpoint(e.endpoint), last.endpoint)
  }

  /** The calls `close` makes for one entry: the multi-destination close, then the endpoint close, each guarded. */
  function EntryClosing(e: Entry, outcome: EntryClose): (r: seq<Event>)
    ensures Filter(r, IsCloseCall) == [CloseMultiRcvDestination(e.endpoint), CloseEndpoint(e.endpoint)]
    ensures Filter(r, IsErrorReport)
         == Report(CloseMultiRcvDestination(e.endpoint), outcome.multiRcv) + Report(CloseEndpoint(e.endpoint), outcome.endpoint)
  {
    var first := Attempt(CloseMultiRcvDestination(e.endpoint), outcome.multiRcv);
    var second := Attempt(CloseEndpoint(e.endpoint), outcome.endpoint);
    FilterConcat(first, second, IsCloseCall);
    FilterConcat(first, second, IsErrorReport);
    first + second
  }

  /** Within one entry's part of the sweep, each report comes right after the call that threw. */
  lemma EntryReportsFollowCalls(e: Entry, outcome: EntryClose)
    ensures ReportsFollowCalls(EntryClosing(e, outcome))
  {
    ReportsFollowCallsConcat(Attempt(CloseMultiRcvDestination(e.endpoint), outcome.multiRcv),
                             Attempt(CloseEndpoint(e.endpoint), outcome.endpoint));
  }

  /** One more entry closed extends both projections of the sweep's trace by that entry's part. */
  lemma ClosingStep(trace: seq<Event>, entries: seq<Entry>, outcomes: seq<EntryClose>, k: nat)
    requires |outcomes| == |entries| && k < |entries|
    requires Filter(trace, IsCloseCall) == CloseCalls(entries[..k])
    requires Filter(trace, IsErrorReport) == Failures(entries[..k], outcomes[..k])
    ensures Filter(trace + EntryClosing(entries[k], outcomes[k]), IsCloseCall) == CloseCalls(entries[..k + 1])
    ensures Filter(trace + EntryClosing(entries[k], outcomes[k]), IsErrorReport) == Failures(entries[..k + 1], outcomes[..k + 1])
  {
    var step := EntryClosing(entries[k], outcomes[k]);
    FilterConcat(trace, step, IsCloseCall);
    CloseCallsStep(entries, k);
    ReportingStep(trace, entries, outcomes, k);
  }

  /** One more entry closed extends the reported failures by that entry's reports. */
  lemma ReportingStep(trace: seq<Event>, entries: seq<Entry>, outcomes: seq<EntryClose>, k: nat)
    requires |outcomes| == |entries| && k < |entries|
    requires Filter(trace, IsErrorReport) == Failures(entries[..k], outcomes[..k])
    ensures Filter(trace + EntryClosing(entries[k], outcomes[k]), IsErrorReport) == Failures(entries[..k + 1], outcomes[..k + 1])
  {
    var e, o := entries[k], outcomes[k];
    var first := Report(CloseMultiRcvDestination(e.endpoint), o.multiRcv);
    var second := Report(CloseEndpoint(e.endpoint), o.endpoint);
    FilterConcat(trace, EntryClosing(e, o), IsErrorReport);
    FailuresStep(entries, outcomes, k);
    Associative(Failures(entries[..k], outcomes[..k]), first, second);
  }

  /** The close calls for one more entry are those for the entries before it, then its own two. */
  lemma CloseCallsStep(entries: seq<Entry>, k: nat)
    requires k < |entries|
    ensures CloseCalls(entries[..k + 1])
         == CloseCalls(entries[..k]) + [CloseMultiRcvDestination(entries[k].endpoint), CloseEndpoint(entries[k].endpoint)]
  {
    assert entries[..k + 1][..k] == entries[..k];
  }

  /** The failures for one more entry are those for the entries before it, then its own, multi-destination first. */
  lemma FailuresStep(entries: seq<Entry>, outcomes: seq<EntryClose>, k: nat)
    requires |outcomes| == |entries| && k < |entries|
    ensures Failures(entries[..k + 1], outcomes[..k + 1])
         == Failures(entries[..k], outcomes[..k])
            + Report(CloseMultiRcvDestination(entries[k].endpoint), outcomes[k].multiRcv)
            + Report(CloseEndpoint(entries[k].endpoint), outcomes[k].endpoint)
  {
    assert entries[..k + 1][..k] == entries[..k];
    assert outcomes[..k + 1][..k] == outcomes[..k];
  }

  /**
   One entry closed after `c` close calls reports its multi-destination
   failure after call c+1 and its endpoint failure after call c+2.
   */
  lemma EntryPinned(trace: seq<Event>, c: nat, e: Entry, outcome: EntryClose)
    requires |Filter(trace, IsCloseCall)| == c
    ensures CallsBeforeReports(trace + EntryClosing(e, outcome)) == CallsBeforeReports(trace) + EntryThrowingCalls(outcome, c)
  {
    var first := Attempt(CloseMultiRcvDestination(e.endpoint), outcome.multiRcv);
    var second := Attempt(CloseEndpoint(e.endpoint), outcome.endpoint);
    AttemptPinned(trace, CloseMultiRcvDestination(e.endpoint), outcome.multiRcv);
    AttemptPinned(trace + first, CloseEndpoint(e.endpoint), outcome.endpoint);
    assert EntryClosing(e, outcome) == first + second;
    Associative(trace, first, second);
    Associative(CallsBeforeReports(trace),
                if outcome.multiRcv.Threw? then [c + 1] else [], if outcome.endpoint.Threw? then [c + 2] else []);
  }

  /** The close-call numbers that threw for one more entry are those before it, then its own. */
  lemma ThrowingCallsStep(outcomes: seq<EntryClose>, k: nat)
    requires k < |outcomes|
    ensures ThrowingCalls(outcomes[..k + 1]) == ThrowingCalls(outcomes[..k]) + EntryThrowingCalls(outcomes[k], 2 * k)
  {
    assert outcomes[..k + 1][..k] == outcomes[..k];
  }

  /** After the first k entries, closing the next keeps every report pinned to the call that threw. */
  lemma PinningStep(trace: seq<Event>, entries: seq<Entry>, outcomes: seq<EntryClose>, k: nat)
    requires |outcomes| == |entries| && k < |entries|
    requires |Filter(trace, IsCloseCall)| == 2 * k
    requires CallsBeforeReports(trace) == ThrowingCalls(outcomes[..k])
    ensures CallsBeforeReports(trace + EntryClosing(entries[k], outcomes[k])) == ThrowingCalls(outcomes[..k + 1])
  {
    EntryPinned(trace, 2 * k, entries[k], outcomes[k]);
    ThrowingCallsStep(outcomes, k);
  }

  /** Closing the base poller adds one close call, last, and reports nothing. */
  lemma ClosingLast(trace: seq<Event>, calls: seq<Event>, failures: seq<Event>)
    requires Filter(trace, IsCloseCall) == calls && Filter(trace, IsErrorReport) == failures
    requires ReportsFollowCalls(trace)
    ensures Filter(trace + [ClosePoller], IsCloseCall) == calls + [ClosePoller]
    ensures Filter(trace + [ClosePoller], IsErrorReport) == failures
    ensures ReportsFollowCalls(trace + [ClosePoller])
  {
    FilterConcat(trace, [ClosePoller], IsCloseCall);
    FilterConcat(trace, [ClosePoller], IsErrorReport);
    Single(ClosePoller);
    ReportsFollowCallsConcat(trace, [ClosePoller]);
  }

  /**
   `close()`: for every entry in registry order, `closeMultiRcvDestination`
   and then `close` on its endpoint, each wrapped so that a failure is
   reported and the sweep goes on; the base poller is closed last. The calls
   made do not depend on which of them throw.
   */
  method Close(entries: seq<Entry>, outcomes: seq<EntryClose>) returns (trace: seq<Event>)
    requires |outcomes| == |entries|
    ensures Filter(trace, IsCloseCall) == CloseCalls(entries) + [ClosePoller]
    ensures Filter(trace, IsErrorReport) == Failures(entries, outcomes)
    ensures |trace| >= 1 && trace[|trace| - 1] == ClosePoller
    ensures ReportsFollowCalls(trace)
    ensures CallsBeforeReports(trace) == ThrowingCalls(outcomes)
  {
    trace := [];
    var k := 0;
    while k < |entries|
      invariant k <= |entries|
      invariant Filter(trace, IsCloseCall) == CloseCalls(entries[..k])
      invariant Filter(trace, IsErrorReport) == Failures(entries[..k], outcomes[..k])
      invariant ReportsFollowCalls(trace)
      invariant CallsBeforeReports(trace) == ThrowingCalls(outcomes[..k])
    {
      EveryEntryIsClosed(entries[..k]);
      PinningStep(trace, entries, outcomes, k);
      ClosingStep(trace, entries, outcomes, k);
      EntryReportsFollowCalls(entries[k], outcomes[k]);
      ReportsFollowCallsConcat(trace, EntryClosing(entries[k], outcomes[k]));
      trace := trace + EntryClosing(entries[k], outcomes[k]);
      k := k + 1;
    }
    assert entries[..|entries|] == entries;
    assert outcomes[..|outcomes|] == outcomes;
    ClosingLast(trace, CloseCalls(entries), Failures(entries, outcomes));
    CallsBeforeReportsSnoc(trace, ClosePoller);
    trace := trace + [ClosePoller];
  }

  /**
   Two entries on one endpoint, only the first entry's multi-destination
   close throwing: the numbers of the calls that threw are just [1].
   */
  lemma SharedEndpointThrowingCalls(error: ErrorId)
    ensures ThrowingCalls([EntryClose(Threw(error), Closed), EntryClose(Closed, Closed)]) == [1]
  {
    var outcomes := [EntryClose(Threw(error), Closed), EntryClose(Closed, Closed)];
    var first := outcomes[..1];
    assert first[..0] == [];
    assert ThrowingCalls(first) == ThrowingCalls([]) + [1];
    assert ThrowingCalls(outcomes) == ThrowingCalls(first);
  }

  /** The sweep for `SharedEndpointThrowingCalls` reports the failure right after call 1. */
  lemma SharedEndpointReportInPlace(endpoint: ObjectId, error: ErrorId)
    ensures var cm, ce := CloseMultiRcvDestination(endpoint), CloseEndpoint(endpoint);
      CallsBeforeReports([cm, ErrorReported(cm, error), ce, cm, ce, ClosePoller]) == [1]
  {
    var cm, ce := CloseMultiRcvDestination(endpoint), CloseEndpoint(endpoint);
    var er := ErrorReported(cm, error);
    var t1 := [] + [cm];
    var t2 := t1 + [er];
    var t3 := t2 + [ce];
    var t4 := t3 + [cm];
    var t5 := t4 + [ce];
    var t6 := t5 + [ClosePoller];
    CallsBeforeReportsSnoc([], cm);
    CallsBeforeReportsSnoc(t1, er);
    CallsBeforeReportsSnoc(t2, ce);
    CallsBeforeReportsSnoc(t3, cm);
    CallsBeforeReportsSnoc(t4, ce);
    CallsBeforeReportsSnoc(t5, ClosePoller);
    assert t6 == [cm, er, ce, cm, ce, ClosePoller];
  }

  /**
   A trace reporting that failure after the second entry's identical call 3
   instead has the same close calls and reports, each directly after a close
   call it names, yet shows 3: only the counts tell it from the sweep's trace.
   */
  lemma SharedEndpointReportMisplaced(endpoint: ObjectId, error: ErrorId)
    ensures var cm, ce := CloseMultiRcvDestination(endpoint), CloseEndpoint(endpoint);
      CallsBeforeReports([cm, ce, cm, ErrorReported(cm, error), ce, ClosePoller]) == [3]
  {
    var cm, ce := CloseMultiRcvDestination(endpoint), CloseEndpoint(endpoint);
    var er := ErrorReported(cm, error);
    var t1 := [] + [cm];
    var t2 := t1 + [ce];
    var t3 := t2 + [cm];
    var t4 := t3 + [er];
    var t5 := t4 + [ce];
    var t6 := t5 + [ClosePoller];
    CallsBeforeReportsSnoc([], cm);
    CallsBeforeReportsSnoc(t1, ce);
    CallsBeforeReportsSnoc(t2, cm);
    CallsBeforeReportsSnoc(t3, er);
    CallsBeforeReportsSnoc(t4, ce);
    CallsBeforeReportsSnoc(t5, ClosePoller);
    assert t6 == [cm, ce, cm, er, ce, ClosePoller];
  }

  /**
   Every entry gets both close calls, the multi-destination one first, at
   its own place in registry order: two calls per entry and nothing else.
   */
  lemma {:induction false} EveryEntryIsClosed(entries: seq<Entry>)
    ensures |CloseCalls(entries)| == 2 * |entries|
    ensures forall k :: 0 <= k < |entries| ==>
      && CloseCalls(entries)[2 * k] == CloseMultiRcvDestination(entries[k].endpoint)
      && CloseCalls(entries)[2 * k + 1] == CloseEndpoint(entries[k].endpoint)
    decreases |entries|
  {
    if entries != [] {
      var init := entries[..|entries| - 1];
      EveryEntryIsClosed(init);
      forall k | 0 <= k < |init|
        ensures entries[k] == init[k]
      {
      }
    }
  }

  /** One failure report per call that threw: a failure never hides another. */
  lemma {:induction false} EveryFailureIsReported(entries: seq<Entry>, outcomes: seq<EntryClose>)
    requires |outcomes| == |entries|
    ensures |Failures(entries, outcomes)| == Thrown(outcomes)
    decreases |outcomes|
  {
    if outcomes != [] {
      EveryFailureIsReported(entries[..|entries| - 1], outcomes[..|outcomes| - 1]);
    }
  }

  /** The number of close calls in `outcomes` that threw. */
  function Thrown(outcomes: seq<EntryClose>): nat
    decreases |outcomes|
  {
    if outcomes == [] then 0
    else
      var last := outcomes[|outcomes| - 1];
      Thrown(outcomes[..|outcomes| - 1]) + (if last.multiRcv.Threw? then 1 else 0) + (if last.endpoint.Threw? then 1 else 0)
  }
}
